=== FILE: README.md ===
# freewrite-web, modelled in Dafny

freewrite-web is a single-page journal. Its `Home` component (`src/app/page.tsx`)
keeps a list of entries in browser storage and mirrors the editor text into
the selected entry. It also runs a focus timer whose duration is typed as
`M:S`. This project models that component as pure transitions over immutable
state and proves what the component promises:

- `TimeFormat` covers `formatTime` and `parseTimeInput`. It proves the
  display/parse round trip for every non-negative count.
- `Entries` covers the entry list controller: `createNewEntry`, `saveEntry`,
  `loadEntries`, `loadEntry` and `deleteEntry`, plus the effect that saves the
  text whenever it changes.
- `Timer` covers the focus-timer state machine:
  - committing the duration on blur or Enter, and reverting it on Escape;
  - start and stop;
  - reset with its re-entrancy lock, and the restart it schedules;
  - the once-a-second tick;
  - the effect that stops the countdown at zero;
  - the effect that shows the countdown in the duration field.
- `App` puts the entry list and the timer side by side behind one event type.
  It proves that every admissible run of events keeps the page invariant:
  - ids are unique and non-empty;
  - an entry is selected, and it holds the editor text;
  - the timer is settled.
- `JsText` and `JsNumber` model the JavaScript built-ins these use, on
  strings and whole numbers: `trim`, `replace`, `slice`, `split`,
  `padStart`, `toString`, `%` and `parseInt`.

React's state setters become record updates, and each effect becomes a
function of the state before and after an event. An effect changes anything
only when one of its dependencies changed. The interval and the reset
timeout become the explicit events `Tick` and `ResetElapsed`. Everything the
page draws from outside is a parameter:
- a new entry's UUID, date, ISO timestamp and placeholder (`Entries.Fresh`);
- the stored entry list, given as `Option<seq<Entry>>`.

What `page.tsx` does, and so what the model does:
- A text change is saved in the same step. There is no debounce.
- Entries carry only a display date, with no creation or update time, and
  the list is not ordered by time. A new entry goes to the front.
- The duration can only be typed. There is no keyboard stepper.
- A countdown that reaches zero stops at zero. It is not restored to the last
  duration.
- Deleting the last entry creates a fresh empty one.
- Deletion has no lock. Only the timer reset is guarded against re-entry.
- The save effect tests the selected id for truthiness, so an entry whose id
  is the empty string is never saved. The page invariant therefore assumes
  non-empty ids: stored ids, and the UUIDs of new entries.

The timer's duration field is stored lazily. It is either `Shows(n)`, whose
text is `formatTime(n)`, or `Typed(t)`, which holds what was typed. Its text
is `Field.Text()`.

## Model

| member | source | states |
|---|---|---|
| TimeFormat.FormatTime | src/app/page.tsx:182-186 | The display holds exactly one colon. A negative count shows a leading minus sign. |
| TimeFormat.FormatTimeDigits | src/app/page.tsx:182-186 | For a count of at least zero, the display ends in a colon and two digits. The digits before the colon denote the whole minutes, and the two after it the seconds left over. |
| TimeFormat.TimeTextExamples | src/app/page.tsx:182-197 | 65 shows as `1:05`, 0 as `0:00` and 900 as `15:00`. `15:00` reads as 900. `bad` and `1:2:3` fall back to 900. |
| TimeFormat.ParseTimeInput | src/app/page.tsx:189-197 | Text that does not hold exactly one colon reads as the 900-second default. |
| TimeFormat.ParseTimeInputParts | src/app/page.tsx:189-197 | `a:b` with no colon in a or b reads as `(parseInt(a) \|\| 0) * 60 + (parseInt(b) \|\| 0)`. |
| TimeFormat.ParseFormatRoundTrip | src/app/page.tsx:182-197 | Reading back the display of any count of at least zero gives the same count. |
| TimeFormat.ParseDigitPair | src/app/page.tsx:189-197 | Two runs of digits around a colon read as the first value times sixty plus the second. |
| TimeFormat.NegativeCountDrifts | src/app/page.tsx:182-197 | -55 seconds shows as `-1:-55`, which reads back as -115, so negative counts do not survive the round trip. |
| JsText.Trim | src/app/page.tsx:90 | `trim` drops only whitespace at both ends, and what is left neither starts nor ends with whitespace. |
| JsText.TrimOfTrimmed | src/app/page.tsx:90 | A string that already has no whitespace at either end trims to itself. |
| JsText.ReplaceAll | src/app/page.tsx:90 | A global one-character `replace` keeps the length and changes exactly the matching characters. |
| JsText.SliceTo | src/app/page.tsx:90 | `slice(0, n)` keeps the first n characters, or the whole string when it is shorter. |
| JsText.PadStart | src/app/page.tsx:185 | `padStart` reaches the width by adding fill characters in front, and ends with the original string. |
| JsText.SplitCount | src/app/page.tsx:190-191 | `split` yields one more part than the string has separators. |
| JsText.SplitJoin | src/app/page.tsx:190 | Joining the parts of a `split` with the separator rebuilds the string. |
| JsText.Split | src/app/page.tsx:190 | `split` yields at least one part, and no part holds the separator. `JsText.SplitJoin` and `JsText.SplitCount` state the rest. |
| JsText.SplitAtSingleSeparator | src/app/page.tsx:190-191 | `a:b` splits into exactly `[a, b]` when neither side holds a colon. |
| JsNumber.NatStr | src/app/page.tsx:183-185 | `toString` of a count is a non-empty run of digits that denotes it, with no leading zero. It is one character long exactly when the count is below 10. |
| JsNumber.JsRem | src/app/page.tsx:184 | `%` with a positive divisor: the dividend is the truncated quotient times the divisor plus the remainder. The remainder takes the dividend's sign and is smaller than the divisor. |
| JsNumber.ParseSigned | src/app/page.tsx:192-193 | Once whitespace is skipped, `parseInt` gives a number exactly when digits follow the optional sign. Its magnitude is the value of those digits, and it is negative only after a minus sign and positive only without one. |
| JsNumber.ParseInt | src/app/page.tsx:192-193 | `parseInt(s, 10)` gives a number only when s holds a digit. It skips leading whitespace and then reads as `JsNumber.ParseSigned` does. The ParseInt lemmas below give its value for signed and unsigned digit runs and with whitespace in front. |
| JsNumber.ParseIntDigits | src/app/page.tsx:192-193 | A run of digits followed by a non-digit reads as its value, whatever follows. |
| JsNumber.ParseIntNegative | src/app/page.tsx:192-193 | A minus sign in front of a run of digits negates its value. |
| JsNumber.ParseIntPositive | src/app/page.tsx:192-193 | A plus sign in front of a run of digits leaves its value as it is. |
| JsNumber.ParseIntSkipsWhitespace | src/app/page.tsx:192-193 | Leading whitespace does not change what `parseInt` reads. |
| JsNumber.ParseIntNoDigits | src/app/page.tsx:192-193 | Text without a digit reads as `NaN`, which `\|\| 0` turns into 0. |
| JsNumber.OrZero | src/app/page.tsx:192-193 | `NaN \|\| 0` is 0, and any other parsed number is kept. |
| Entries.FirstIndex | src/app/page.tsx:122 | The position `find` stops at: every entry in front of it has another id, and it holds the id unless it is the end of the list. |
| Entries.Find | src/app/page.tsx:122 | `find` finds an entry exactly when its id is in the list. The entry it gives is the first one with that id: every entry in front of it has another id. With unique ids, it is the only one. |
| Entries.Preview | src/app/page.tsx:89-91 | The preview holds no newline. A text of at most 30 characters previews as its flattened, trimmed self. A longer text previews as the first 30 characters of that, followed by `...`. |
| Entries.PreviewOfTidyText | src/app/page.tsx:89-91 | A short text without newlines or surrounding whitespace previews as itself. |
| Entries.PreviewLengthBound | src/app/page.tsx:89-91 | A preview is at most 33 characters long, and a short text's preview is no longer than the text. |
| Entries.FileStamp | src/app/page.tsx:62 | The filename timestamp is the ISO time cut to 19 characters. Each `:` and `.` becomes `-`, and every other character is kept. |
| Entries.FilenameShape | src/app/page.tsx:62-63 | The filename `Entries.Filename` builds is `[`, the id and `]-[`, then the stamp and `].md`. Past the id, no `:` or `.` occurs before the extension. |
| Entries.NewEntry | src/app/page.tsx:53-71 | The new entry has the supplied id and date, empty content and preview, and the filename built from its own id and the current ISO time. |
| Entries.NewEntryPreviewAgrees | src/app/page.tsx:65-71 | A new entry's empty preview is the preview of its empty content. |
| Entries.CreateNewEntry | src/app/page.tsx:53-82 | The new empty entry (its id, date, empty content and preview, and the filename built from the id and the `[:.]`-replaced timestamp) goes in front of the unchanged list and is selected, and the text is cleared. The ids grow by the new id and stay unique when it is fresh. |
| Entries.CreateKeepsValid | src/app/page.tsx:53-82 | With a fresh, non-empty id, the new entry is selected and holds the (empty) editor text. |
| Entries.ReplaceById | src/app/page.tsx:94-96 | `map` replaces exactly the entries with the given id and keeps every position. |
| Entries.SaveEntry | src/app/page.tsx:85-100 | Saving keeps the length and order and leaves every entry with another id as it was. The entries with the saved id get the editor text as content and its preview, and take the date and filename of the saved entry (their own when ids are unique). |
| Entries.LoadEntries | src/app/page.tsx:103-118 | A non-empty stored list is shown with its first entry selected and that entry's content as the text, and the placeholder stays. An empty or absent list starts a new selected empty entry with the placeholder picked for it. |
| Entries.LoadEntriesValid | src/app/page.tsx:103-118 | Loading a stored list with unique, non-empty ids leaves an entry selected that holds the editor text. |
| Entries.LoadEntry | src/app/page.tsx:121-127 | An unknown id changes nothing. A known id becomes the selection, and the text becomes the content of the first entry with that id. |
| Entries.LoadEntryKeepsValid | src/app/page.tsx:121-127 | Selecting an entry keeps the selected entry holding the editor text. |
| Entries.RemoveId | src/app/page.tsx:131 | `filter` keeps every entry with another id as many times as before, and no entry with the removed id. |
| Entries.RemoveIdAppend | src/app/page.tsx:131 | `filter` keeps the order: filtering a concatenation gives the filtered parts in turn. |
| Entries.RemoveIdSingle | src/app/page.tsx:131 | On a single entry, `filter` keeps it exactly when its id differs from the removed one. |
| Entries.RemoveIdHead | src/app/page.tsx:131-138 | The head of the filtered list, which a delete selects, is the first entry of the old list with another id. |
| Entries.FirstKept | src/app/page.tsx:131-138 | The first position whose entry has another id: every entry in front of it has the removed id. It is the end of the list when no entry has another id. |
| Entries.RemoveIdHeadAt | src/app/page.tsx:131-138 | The head of the filtered list is the entry at the first position with another id. |
| Entries.RemoveIdIds | src/app/page.tsx:131 | After `filter`, the ids are the old ids without the removed one. |
| Entries.RemoveIdUnique | src/app/page.tsx:131 | `filter` keeps ids unique. |
| Entries.DeleteEntry | src/app/page.tsx:130-143 | Deleting an unselected entry leaves the selection, text and placeholder alone. Deleting the selected one selects the new head, shows its content and keeps the placeholder. When the list is left empty, it starts a new selected empty entry with that entry's placeholder. |
| Entries.DeleteKeepsSelectable | src/app/page.tsx:130-143 | After a delete, an entry in the list is still selected (given a non-empty replacement id). When another entry was deleted, the selected entry still holds the text. |
| Entries.Autosave | src/app/page.tsx:279-286 | The effect changes nothing unless the text changed and the selection is a non-empty id in the list. Then it is `saveEntry` of the first entry with that id, which afterwards holds the text and its preview. It never changes the ids, the selection or any other entry. |
| Entries.SavedIsFound | src/app/page.tsx:85-100 | After `saveEntry`, the first entry with the saved id holds the editor text and its preview. |
| Entries.ReplacedIsFound | src/app/page.tsx:94-96 | After the `map`, the first entry with the replaced id is the updated entry. |
| Entries.AutosaveRestores | src/app/page.tsx:279-286 | After the effect, a sound selection holds the editor text. |
| Timer.StopAtZero | src/app/page.tsx:256-276 | The timer effect changes nothing unless `running` or `remaining` changed, and it never stops a count other than zero. A change that leaves the count at zero stops the timer, and the effect touches nothing but `running`. |
| Timer.Handle | src/app/page.tsx:199-253 | Each part of the timer has its own events. Only a commit while editing sets the duration. Only a click on a stopped timer opens the field. Only start or a pending restart sets the timer running. Only reset and its restart move the lock. The countdown moves only on a tick, a reset or a commit, and a tick takes off one second at most, never going below zero. The per-event lemmas below give each handler's exact effect. |
| Timer.Step | src/app/page.tsx:199-322 | After a handler, the effects change only whether the timer runs and what the field shows. They only stop a countdown that stands at zero, and they only make the field show the countdown outside editing. |
| Timer.SyncInput | src/app/page.tsx:318-322 | The display effect changes nothing unless `remaining` or `editing` changed, and nothing while editing. Outside editing, a change makes the field show the countdown, and the effect touches nothing but the field. |
| Timer.StepSettled | src/app/page.tsx:205-276 | Every timer event keeps the timer settled: a countdown at zero is stopped, and outside editing the field shows the countdown. |
| Timer.RunSettled | src/app/page.tsx:205-276 | Every run of timer events keeps the timer settled. |
| Timer.InitialDisplay | src/app/page.tsx:12-20 | The initial field text `15:00` is the display of the initial fifteen-minute countdown. |
| Timer.CommitSetsDuration | src/app/page.tsx:205-220 | Blur or Enter while editing sets both the countdown and the reset duration to the parsed field and ends editing. The field then shows the committed value. |
| Timer.TypingChangesOnlyField | src/app/page.tsx:200-202 | Typing into the open field replaces its text and changes nothing else. |
| Timer.EscapeReverts | src/app/page.tsx:221-224 | Escape ends editing and shows the countdown again, without changing the countdown, the duration or whether the timer runs. |
| Timer.EditOnlyWhenStopped | src/app/page.tsx:506 | Clicking the time opens the field exactly when the timer is stopped. On a running timer, the click changes nothing. |
| Timer.ReopenKeepsCountdown | src/app/page.tsx:205-210 | Opening the field and leaving it untouched keeps a non-negative countdown, and that countdown becomes the duration a reset returns to. |
| Timer.TickCountsDown | src/app/page.tsx:256-276 | A tick takes one second off a running, positive countdown and stops the timer when it reaches zero. Any other tick changes nothing. |
| Timer.TicksCountDown | src/app/page.tsx:256-276 | After n ticks, a running countdown stands at n seconds less, but never below zero. It is still running exactly while time is left. |
| Timer.IdleTicks | src/app/page.tsx:256-276 | Ticks change nothing on a stopped timer. |
| Timer.TicksNeverNegative | src/app/page.tsx:256-276 | Ticks never take a settled, non-negative countdown below zero. |
| Timer.FullSessionStops | src/app/page.tsx:256-276 | A fifteen-minute session stops at zero after 900 ticks. |
| Timer.ResetStopsAndLocks | src/app/page.tsx:236-246 | A reset without a pending restart shows the last duration as the countdown, stops the timer and takes the lock. A second reset before the restart changes nothing. |
| Timer.ResetWhileLockedIgnored | src/app/page.tsx:236-238 | While the lock is held, a reset does nothing. |
| Timer.RestartStep | src/app/page.tsx:249-252 | The scheduled restart runs the countdown and releases the lock. A countdown at zero is stopped again at once. |
| Timer.RestartAfterReset | src/app/page.tsx:236-276 | Reset and its restart run the countdown from the last duration (stopped if that is zero) and release the lock. A second firing changes nothing. |
| Timer.ElapsedWithoutResetIgnored | src/app/page.tsx:249-252 | Without a pending restart, the restart event changes nothing. |
| Timer.DoubleResetRestartsOnce | src/app/page.tsx:236-253 | Two resets before the restart fires end exactly like one. |
| Timer.StopKeepsCountdown | src/app/page.tsx:232-234 | Stop halts the countdown where it is. |
| Timer.StartRuns | src/app/page.tsx:228-230 | Start runs a settled countdown from where it is, but a countdown at zero stops again at once. |
| App.Init | src/app/page.tsx:279-307 | A non-empty stored list is shown at its own length, with its first entry selected and that entry's content as the text. The first entry is as stored, except that the mount-time autosave renews its preview when its content and id are non-empty. Every entry with the first id then equals it, and every entry with another id is as stored. With nothing stored, or an empty list, the page shows exactly one new empty entry, selected, with empty text. The placeholder is the one picked at mount. The timer is stopped at fifteen minutes with no reset pending, and its closed field shows `15:00`. |
| App.EditorOp | src/app/page.tsx:53-143 | Timer events leave the editor alone, and typing changes only the text. A click on an entry keeps the list and placeholder. The new-entry button puts the new entry in front of the list and selects it. A delete leaves the filtered list, or a single new entry when the list is emptied. |
| App.Step | src/app/page.tsx:53-322 | A timer event changes only the timer. An entry event leaves the timer alone, and its autosave changes no selection, text or id, and no entry but the selected one. |
| App.InitEstablishes | src/app/page.tsx:289-307 | With unique, non-empty stored ids (and a non-empty id for an entry created at mount), the mounted page satisfies the page invariant. |
| App.StepPreservesInv | src/app/page.tsx:53-286 | Every event keeps the page invariant, provided that the UUID of any new entry is non-empty and, for the new-entry button, fresh. |
| App.RunPreservesInv | src/app/page.tsx:53-286 | Every admissible run of events keeps the page invariant. |
| App.EventsStayInTheirPart | src/app/page.tsx:53-286 | Timer events leave the entries alone, and entry events leave the timer alone. |
| App.TypingSavesSelected | src/app/page.tsx:279-286 | Typing saves the text into the selected entry, and a change of text renews its preview. It keeps the list length, the selection and every other entry. |
| App.EmptyIdNotSaved | src/app/page.tsx:279-286 | A selected entry whose id is empty is never saved: typing leaves every entry as it was. |
| App.DeleteRemovesId | src/app/page.tsx:130-143 | After a delete, the deleted id is gone from the list, unless a replacement entry reuses it. |

## Left out

- Storage: reading and writing `localStorage` and `JSON.parse`/`stringify`. The stored list is a parameter, and a malformed stored value (which makes `JSON.parse` throw) is not modelled.
- Randomness, time and the locale: `crypto.randomUUID`, the `Math.random` placeholder choice, `Intl.DateTimeFormat` and `toISOString`. Their results are the fields of `Entries.Fresh` or parameters. That a new UUID is fresh and non-empty is a hypothesis of the invariant lemmas, not a guarantee.
- App.RunPreservesInv: assumes that stored ids are non-empty. A stored entry with the empty id can be selected but is never saved (`App.EmptyIdNotSaved`), so the page does not keep the invariant for such a list.
- The share links (`shareWithChatGPT`, `shareWithClaude`): they build a URL and open a window, which is outside the page state.
- The sidebar flag and its storage mirror, the font controls, the `showControls` flag, focusing the textarea and all markup and styling: they are user interface with no state the rest depends on.
- React scheduling: batching, render timing and the real 1000 ms interval and 100 ms timeout. These become the `Tick` and `ResetElapsed` events, and each event is followed by the effects whose dependencies it changed.
- Number width: counts are unbounded integers. JavaScript numbers are doubles, so `parseInt` of a very long digit run loses precision, and `NaN`/`Infinity` durations cannot arise here.
- Text: a character stands for one UTF-16 code unit, so the 30-character preview cut and the lengths agree with JavaScript only where that holds.
- TimeFormat.ParseFormatRoundTrip: holds only for counts of at least zero. A negative duration can be typed (`-1:00`), and its display does not read back to the same count (see `TimeFormat.NegativeCountDrifts`).

=== FILE: app.dfy ===
/** The whole page: the entry list controller and the focus timer side by
    side, driven by the events the page's controls and callbacks raise. Each
    entry event is followed by the autosave effect, each timer event by the
    timer's own effects. */
module App {
  import opened Wrappers
  import opened Entries
  import Timer

  datatype AppState = AppState(editor: Editor, timer: Timer.TimerState)

  datatype Event =
    | NewEntryClicked(supply: Fresh)             // the new-entry button
    | EntryClicked(id: string)                   // an entry in the sidebar
    | DeleteClicked(id: string, supply: Fresh)   // its delete button; `supply` serves a replacement entry
    | TextTyped(text: string)                    // the editor's change event
    | TimerInput(ev: Timer.TimerEvent)

  /** The page once mounted: the stored entries loaded (`None` when nothing
      is stored), the autosave effect run on the loaded text, the placeholder
      picked at mount, and the timer's field showing its fifteen minutes. A
      stored list is shown with its first entry selected and that entry's
      text in the editor; with nothing stored, it shows one new empty entry. */
  function Init(stored: Option<seq<Entry>>, f: Fresh, placeholder: string): (r: AppState)
    ensures r.editor.selected.Some? && r.editor.selected.value in Ids(r.editor.entries)
    ensures r.editor.placeholder == placeholder
    ensures r.timer.remaining == r.timer.lastSet == 900 && !r.timer.running && !r.timer.resetLock
    ensures stored.Some? && |stored.value| > 0 ==>
      && |r.editor.entries| == |stored.value|
      && r.editor.selected == Some(stored.value[0].id)
      && r.editor.text == stored.value[0].content
      && forall k :: 0 <= k < |stored.value| && stored.value[k].id != stored.value[0].id ==>
           r.editor.entries[k] == stored.value[k]
    ensures stored.Some? && |stored.value| > 0 ==>
      var e0 := stored.value[0];
      && r.editor.entries[0] ==
           (if e0.content == "" || e0.id == "" then e0 else e0.(previewText := Preview(e0.content)))
      && (e0.content != "" && e0.id != "" ==>
            forall k :: 0 <= k < |stored.value| && stored.value[k].id == e0.id ==>
              r.editor.entries[k] == r.editor.entries[0])
    ensures stored.None? || |stored.value| == 0 ==>
      r.editor.entries == [NewEntry(f)] && r.editor.selected == Some(f.id) && r.editor.text == ""
    ensures !r.timer.editing && r.timer.input == Timer.Shows(900)
  {
    var loaded := LoadEntries(InitialEditor, stored, f);
    var saved := Autosave(InitialEditor, loaded);
    AppState(saved.(placeholder := placeholder), Timer.InitialTimer.(input := Timer.Shows(Timer.InitialTimer.remaining)))
  }

  /** What an entry event does to the editor, before the autosave effect.
      Timer events leave it alone, typing changes only the text, a click on
      an entry keeps the list, the new-entry button puts a new entry in front
      of the list, and a delete removes the id unless it empties the list. */
  function EditorOp(ed: Editor, ev: Event): (r: Editor)
    ensures ev.TimerInput? ==> r == ed
    ensures ev.TextTyped? ==> r == ed.(text := ev.text)
    ensures ev.EntryClicked? ==> r.entries == ed.entries && r.placeholder == ed.placeholder
    ensures ev.NewEntryClicked? ==>
      r.entries == [NewEntry(ev.supply)] + ed.entries && r.selected == Some(ev.supply.id)
    ensures ev.DeleteClicked? ==>
      r.entries == RemoveId(ed.entries, ev.id) || r.entries == [NewEntry(ev.supply)]
  {
    match ev
    case NewEntryClicked(f) => CreateNewEntry(ed, f)
    case EntryClicked(id) => LoadEntry(ed, id)
    case DeleteClicked(id, f) => DeleteEntry(ed, id, f)
    case TextTyped(t) => SetText(ed, t)
    case TimerInput(_) => ed
  }

  /** One event and the effects it triggers. A timer event goes to the timer
      alone; an entry event goes to the editor, and its autosave then changes
      no selection, text or id, and no entry but the selected one. */
  function Step(st: AppState, ev: Event): (r: AppState)
    ensures ev.TimerInput? ==> r == st.(timer := Timer.Step(st.timer, ev.ev))
    ensures !ev.TimerInput? ==>
      var op := EditorOp(st.editor, ev);
      && r.timer == st.timer
      && r.editor.selected == op.selected && r.editor.text == op.text
      && |r.editor.entries| == |op.entries| && Ids(r.editor.entries) == Ids(op.entries)
      && forall k :: 0 <= k < |op.entries| && Some(op.entries[k].id) != op.selected ==>
           r.editor.entries[k] == op.entries[k]
  {
    match ev
    case TimerInput(t) => st.(timer := Timer.Step(st.timer, t))
    case _ => st.(editor := Autosave(st.editor, EditorOp(st.editor, ev)))
  }

  function Run(st: AppState, evs: seq<Event>): AppState
    decreases |evs|
  {
    if |evs| == 0 then st else Run(Step(st, evs[0]), evs[1..])
  }

  /** What the outside world guarantees: a new entry's UUID is not empty and
      not already in the list. */
  predicate Admissible(st: AppState, ev: Event) {
    && (ev.NewEntryClicked? ==> ev.supply.id !in Ids(st.editor.entries) && ev.supply.id != "")
    && (ev.DeleteClicked? ==> ev.supply.id != "")
  }

  predicate AdmissibleRun(st: AppState, evs: seq<Event>)
    decreases |evs|
  {
    |evs| == 0 || (Admissible(st, evs[0]) && AdmissibleRun(Step(st, evs[0]), evs[1..]))
  }

  /** The page invariant: ids are unique and non-empty, an entry is selected
      and holds the editor text, and the timer is settled. */
  predicate Inv(st: AppState) {
    Valid(st.editor) && Timer.Settled(st.timer)
  }

  /** The mounted page satisfies the invariant whenever the stored ids are
      unique and non-empty. */
  lemma InitEstablishes(stored: Option<seq<Entry>>, f: Fresh, placeholder: string)
    requires stored.Some? ==> UniqueIds(stored.value) && "" !in Ids(stored.value)
    requires f.id != ""
    ensures Inv(Init(stored, f, placeholder))
  {
    LoadEntriesValid(InitialEditor, stored, f);
    var loaded := LoadEntries(InitialEditor, stored, f);
    AutosaveRestores(InitialEditor, loaded);
  }

  /** Every admissible event keeps the invariant. */
  lemma StepPreservesInv(st: AppState, ev: Event)
    requires Inv(st) && Admissible(st, ev)
    ensures Inv(Step(st, ev))
  {
    var ed := st.editor;
    match ev
    case TimerInput(t) =>
      Timer.StepSettled(st.timer, t);
    case NewEntryClicked(f) =>
      CreateKeepsValid(ed, f);
      AutosaveRestores(ed, EditorOp(ed, ev));
    case EntryClicked(id) =>
      LoadEntryKeepsValid(ed, id);
      AutosaveRestores(ed, EditorOp(ed, ev));
    case DeleteClicked(id, f) =>
      DeleteKeepsSelectable(ed, id, f);
      AutosaveRestores(ed, EditorOp(ed, ev));
    case TextTyped(t) =>
      AutosaveRestores(ed, EditorOp(ed, ev));
  }

  /** Every admissible run of events keeps the invariant. */
  lemma {:induction false} RunPreservesInv(st: AppState, evs: seq<Event>)
    requires Inv(st) && AdmissibleRun(st, evs)
    ensures Inv(Run(st, evs))
    decreases |evs|
  {
    if |evs| > 0 {
      StepPreservesInv(st, evs[0]);
      RunPreservesInv(Step(st, evs[0]), evs[1..]);
    }
  }

  /** Timer events leave the entries alone, and entry events the timer. */
  lemma EventsStayInTheirPart(st: AppState, ev: Event)
    ensures ev.TimerInput? ==> Step(st, ev).editor == st.editor
    ensures !ev.TimerInput? ==> Step(st, ev).timer == st.timer
  {
  }

  /** Typing saves the text into the selected entry, and leaves every other
      entry, the order and the selection as they were; a change of text also
      renews the entry's preview. */
  lemma TypingSavesSelected(st: AppState, t: string)
    requires Inv(st)
    ensures var r := Step(st, TextTyped(t)).editor;
      && r.text == t && r.selected == st.editor.selected
      && |r.entries| == |st.editor.entries|
      && Find(r.entries, st.editor.selected.value).Some?
      && Find(r.entries, st.editor.selected.value).value.content == t
      && (t != st.editor.text ==> Find(r.entries, st.editor.selected.value).value.previewText == Preview(t))
      && (forall k :: 0 <= k < |r.entries| && Some(st.editor.entries[k].id) != st.editor.selected ==>
            r.entries[k] == st.editor.entries[k])
  {
    var ed := st.editor;
    var after := SetText(ed, t);
    assert Truthy(after.selected) && after.selected.value in Ids(after.entries);
    if t == ed.text {
      assert Step(st, TextTyped(t)).editor == after;
    }
  }

  /** A selected entry with the empty id is never saved: the page tests the
      selection for truthiness, so typing leaves every entry as it was. */
  lemma EmptyIdNotSaved(st: AppState, t: string)
    requires st.editor.selected == Some("")
    ensures Step(st, TextTyped(t)).editor.entries == st.editor.entries
  {
  }

  /** Deleting an entry removes its id from the list, unless the replacement
      entry created for an emptied list happens to reuse it. */
  lemma DeleteRemovesId(st: AppState, id: string, f: Fresh)
    requires f.id != id
    ensures id !in Ids(Step(st, DeleteClicked(id, f)).editor.entries)
  {
    var ed := st.editor;
    RemoveIdIds(ed.entries, id);
    var d := DeleteEntry(ed, id, f);
    if ed.selected == Some(id) && |RemoveId(ed.entries, id)| == 0 {
      assert d.entries == [NewEntry(f)];
    }
  }
}

=== FILE: entries.dfy ===
/** The journal's entry list controller: the entries kept in browser storage,
    which one is selected, and the editor text mirrored into it. */
module Entries {
  import opened Wrappers
  import opened JsText

  /** One journal entry as stored. `date` is the display date fixed at
      creation; `previewText` is derived from `content` when it is saved. */
  datatype Entry = Entry(id: string, date: string, content: string, previewText: string, filename: string)

  /** What creating an entry draws from outside the page: a fresh UUID, the
      formatted current date, the current ISO timestamp and the randomly
      picked placeholder prompt. */
  datatype Fresh = Fresh(id: string, date: string, isoNow: string, placeholder: string)

  /** The page state the entry handlers read and write. `selected` is None
      while no entry is selected (`null`). */
  datatype Editor = Editor(entries: seq<Entry>, selected: Option<string>, text: string, placeholder: string)

  /** How many characters of the text the sidebar preview keeps. */
  const PreviewLength := 30

  /** How many characters of the adjusted ISO timestamp go into a filename. */
  const StampLength := 19

  /** The editor state before the stored entries are loaded. */
  const InitialEditor := Editor([], None, "", "")

  function Ids(es: seq<Entry>): set<string> {
    set e | e in es :: e.id
  }

  predicate UniqueIds(es: seq<Entry>) {
    forall i, j :: 0 <= i < j < |es| ==> es[i].id != es[j].id
  }

  /** The position of the first entry with that id, or the length of the
      list when there is none. */
  function FirstIndex(es: seq<Entry>, id: string): (k: nat)
    ensures k <= |es|
    ensures k < |es| ==> es[k].id == id
    ensures forall j :: 0 <= j < k ==> es[j].id != id
  {
    if |es| == 0 then 0
    else if es[0].id == id then 0
    else
      var k := FirstIndex(es[1..], id);
      assert forall j :: 1 <= j < k + 1 ==> es[j] == es[1..][j - 1];
      1 + k
  }

  /** `entries.find(e => e.id === id)`: the first entry with that id. */
  function Find(es: seq<Entry>, id: string): (r: Option<Entry>)
    ensures r.Some? <==> id in Ids(es)
    ensures r.Some? ==> r.value in es && r.value.id == id
    ensures r.Some? && UniqueIds(es) ==>
      forall k :: 0 <= k < |es| && es[k].id == id ==> es[k] == r.value
    ensures r.Some? ==>
      exists k :: 0 <= k < |es| && es[k] == r.value && forall j :: 0 <= j < k ==> es[j].id != id
  {
    var k := FirstIndex(es, id);
    if k < |es| then
      assert es[k] in es;
      Some(es[k])
    else
      assert forall e :: e in es ==> e.id != id by {
        forall e | e in es ensures e.id != id {
          var j :| 0 <= j < |es| && es[j] == e;
        }
      }
      None
  }

  /** The sidebar preview of `text`: newlines become spaces, the result is
      trimmed and cut to 30 characters, and `...` follows exactly when the
      raw text is longer than 30 characters. */
  function Preview(text: string): (r: string)
    ensures forall k :: 0 <= k < |r| ==> r[k] != '\n'
    ensures |text| <= PreviewLength ==> r == Trim(ReplaceAll(text, '\n', ' '))
    ensures |text| > PreviewLength ==> |r| >= 3 && r[|r| - 3..] == "..."
    ensures |text| > PreviewLength ==>
      r[..|r| - 3] == SliceTo(Trim(ReplaceAll(text, '\n', ' ')), PreviewLength)
  {
    var t := Trim(ReplaceAll(text, '\n', ' '));
    var body := SliceTo(t, PreviewLength);
    PreviewBodyClean(text);
    PreviewFromBody(t, body, |text| > PreviewLength);
    if |text| > PreviewLength then body + "..." else body
  }

  /** The trimmed, cut text holds no newline, and a short text is not cut. */
  lemma PreviewBodyClean(text: string)
    ensures var t := Trim(ReplaceAll(text, '\n', ' '));
      && '\n' !in SliceTo(t, PreviewLength)
      && (|text| <= PreviewLength ==> SliceTo(t, PreviewLength) == t)
  {
    var flat := ReplaceAll(text, '\n', ' ');
    NoNewlineAfterReplace(text);
    TrimKeepsAbsent(flat, '\n');
    SliceKeepsAbsent(Trim(flat), PreviewLength, '\n');
  }

  /** The preview built from the cut text `body`, with the ellipsis when the
      text is long, holds no newline; a short text is not cut. */
  lemma PreviewFromBody(t: string, body: string, long: bool)
    requires '\n' !in body
    requires !long ==> body == t
    ensures var r := if long then body + "..." else body;
      && (forall k :: 0 <= k < |r| ==> r[k] != '\n')
      && (!long ==> r == t)
      && (long ==> |r| >= 3 && r[|r| - 3..] == "..." && r[..|r| - 3] == body)
  {
    var r := body + "...";
    assert r[..|r| - 3] == body;
    assert r[|r| - 3..] == "...";
  }

  lemma NoNewlineAfterReplace(text: string)
    ensures '\n' !in ReplaceAll(text, '\n', ' ')
  {
    var flat := ReplaceAll(text, '\n', ' ');
    assert forall k :: 0 <= k < |flat| ==> flat[k] != '\n';
  }

  lemma TrimKeepsAbsent(s: string, c: char)
    requires c !in s
    ensures c !in Trim(s)
  {
    var r := Trim(s);
    var i: nat :| TrimmedAt(s, r, i);
    assert forall k :: 0 <= k < |r| ==> r[k] == s[i + k];
  }

  /** A preview shows a short, already tidy text exactly as it is. */
  lemma PreviewOfTidyText(text: string)
    requires |text| <= PreviewLength
    requires '\n' !in text
    requires |text| > 0 ==> !IsWhitespace(text[0]) && !IsWhitespace(text[|text| - 1])
    ensures Preview(text) == text
  {
    var flat := ReplaceAll(text, '\n', ' ');
    assert flat == text;
    TrimOfTrimmed(text);
  }

  /** A preview is never longer than 30 characters plus the ellipsis, and
      shows at most 30 characters of the text's own. */
  lemma PreviewLengthBound(text: string)
    ensures |Preview(text)| <= PreviewLength + 3
    ensures |text| <= PreviewLength ==> |Preview(text)| <= |text|
  {
    var flat := ReplaceAll(text, '\n', ' ');
    var t := Trim(flat);
    var i: nat :| TrimmedAt(flat, t, i);
  }

  /** The filename timestamp: the ISO time with `:` and `.` turned into `-`,
      cut to 19 characters. */
  function FileStamp(iso: string): (r: string)
    ensures |r| == if |iso| < StampLength then |iso| else StampLength
    ensures ':' !in r && '.' !in r
    ensures forall k :: 0 <= k < |r| && iso[k] != ':' && iso[k] != '.' ==> r[k] == iso[k]
    ensures forall k :: 0 <= k < |r| && (iso[k] == ':' || iso[k] == '.') ==> r[k] == '-'
  {
    var dashed := ReplaceAll(ReplaceAll(iso, ':', '-'), '.', '-');
    var r := SliceTo(dashed, StampLength);
    assert forall k :: 0 <= k < |r| ==> r[k] != ':' && r[k] != '.';
    r
  }

  /** `[<id>]-[<timestamp>].md` */
  function Filename(id: string, iso: string): string {
    "[" + id + "]-[" + FileStamp(iso) + "].md"
  }

  /** A filename is the id in brackets, then the timestamp in brackets, then
      the `.md` extension; past the id, no `:` or `.` occurs before the
      extension. */
  lemma FilenameShape(id: string, iso: string)
    ensures var r := Filename(id, iso);
      && |r| == |id| + |FileStamp(iso)| + 8
      && r[..|id| + 2] == "[" + id + "]"
      && r[|r| - 4..] == "].md"
      && forall k :: |id| + 2 <= k < |r| - 3 ==> r[k] != ':' && r[k] != '.'
  {
    var front := "[" + id + "]-[";
    var stamp := FileStamp(iso);
    assert Filename(id, iso) == front + stamp + "].md";
    ConcatParts(front, stamp, "].md");
    assert front[..|id| + 2] == "[" + id + "]";
    assert forall k :: |id| + 2 <= k < |front| ==> front[k] == '-' || front[k] == '[';
  }

  /** Where the three parts of a concatenation sit in it. */
  lemma ConcatParts(a: string, m: string, b: string)
    ensures var r := a + m + b;
      && |r| == |a| + |m| + |b|
      && r[..|a|] == a && r[|a| + |m|..] == b
      && (forall k :: 0 <= k < |a| ==> r[k] == a[k])
      && (forall k :: |a| <= k < |a| + |m| ==> r[k] == m[k - |a|])
      && (forall k :: |a| + |m| <= k < |r| ==> r[k] == b[k - |a| - |m|])
  {
  }

  /** The empty entry `createNewEntry` builds: the supplied id and date, no
      content, and the filename built from its id. */
  function NewEntry(f: Fresh): (r: Entry)
    ensures r.id == f.id && r.date == f.date && r.content == "" && r.previewText == ""
    ensures r.filename == Filename(r.id, f.isoNow)
  {
    Entry(f.id, f.date, "", "", Filename(f.id, f.isoNow))
  }

  /** A new entry's empty preview is the preview of its empty content, so it
      is the same as if it had been saved. */
  lemma NewEntryPreviewAgrees(f: Fresh)
    ensures NewEntry(f).previewText == Preview(NewEntry(f).content)
  {
    PreviewOfTidyText("");
  }

  /** `createNewEntry`: put a fresh empty entry at the head of the list,
      select it and clear the editor. A fresh id keeps the ids unique. */
  function CreateNewEntry(st: Editor, f: Fresh): (r: Editor)
    ensures |r.entries| == |st.entries| + 1 && r.entries[1..] == st.entries
    ensures r.entries[0].id == f.id && r.entries[0].date == f.date
    ensures r.entries[0].content == "" && r.entries[0].previewText == ""
    ensures r.entries[0] == NewEntry(f)
    ensures r.selected == Some(f.id) && r.text == "" && r.placeholder == f.placeholder
    ensures Ids(r.entries) == Ids(st.entries) + {f.id}
    ensures UniqueIds(st.entries) && f.id !in Ids(st.entries) ==> UniqueIds(r.entries)
  {
    var es := [NewEntry(f)] + st.entries;
    assert es[1..] == st.entries;
    assert forall k :: 1 <= k < |es| ==> es[k] == st.entries[k - 1];
    Editor(es, Some(f.id), "", f.placeholder)
  }

  /** The list with every entry whose id is `u.id` replaced by `u`. */
  function ReplaceById(es: seq<Entry>, u: Entry): (r: seq<Entry>)
    ensures |r| == |es|
    ensures forall k :: 0 <= k < |es| ==> r[k] == if es[k].id == u.id then u else es[k]
  {
    if |es| == 0 then [] else [if es[0].id == u.id then u else es[0]] + ReplaceById(es[1..], u)
  }

  /** `saveEntry(entry)`: the entries with `entry`'s id get the editor text as
      their content and its preview; every other entry, the order, the
      selection and the text stay as they are. */
  function SaveEntry(st: Editor, entry: Entry): (r: Editor)
    ensures |r.entries| == |st.entries|
    ensures forall k :: 0 <= k < |st.entries| && st.entries[k].id != entry.id ==>
      r.entries[k] == st.entries[k]
    ensures forall k :: 0 <= k < |st.entries| && st.entries[k].id == entry.id ==>
      && r.entries[k].id == entry.id
      && r.entries[k].content == st.text
      && r.entries[k].previewText == Preview(st.text)
      && r.entries[k].date == entry.date && r.entries[k].filename == entry.filename
    ensures r.selected == st.selected && r.text == st.text && r.placeholder == st.placeholder
  {
    var updated := entry.(content := st.text, previewText := Preview(st.text));
    st.(entries := ReplaceById(st.entries, updated))
  }

  /** `loadEntries`: show the stored list and select its first entry, or
      start a new entry when nothing (or an empty list) is stored. */
  function LoadEntries(st: Editor, stored: Option<seq<Entry>>, f: Fresh): (r: Editor)
    ensures r.selected.Some? && r.selected.value in Ids(r.entries)
    ensures stored.Some? && |stored.value| > 0 ==>
      && r.entries == stored.value
      && r.selected == Some(stored.value[0].id)
      && r.text == stored.value[0].content
    ensures stored.None? || |stored.value| == 0 ==>
      && r.entries[0] == NewEntry(f) && r.selected == Some(f.id) && r.text == ""
    ensures stored.Some? && |stored.value| == 0 ==> r.entries == [NewEntry(f)]
    ensures stored.None? ==> r.entries[1..] == st.entries
    ensures stored.Some? && |stored.value| > 0 ==> r.placeholder == st.placeholder
    ensures stored.None? || |stored.value| == 0 ==> r.placeholder == f.placeholder
  {
    match stored
    case None => CreateNewEntry(st, f)
    case Some(es) =>
      if |es| > 0 then st.(entries := es, selected := Some(es[0].id), text := es[0].content)
      else CreateNewEntry(st.(entries := []), f)
  }

  /** `loadEntry(id)`: select an existing entry and show its content; an
      unknown id changes nothing. */
  function LoadEntry(st: Editor, id: string): (r: Editor)
    ensures id !in Ids(st.entries) ==> r == st
    ensures id in Ids(st.entries) ==>
      && r.entries == st.entries && r.selected == Some(id) && r.placeholder == st.placeholder
      && r.text == Find(st.entries, id).value.content
  {
    match Find(st.entries, id)
    case None => st
    case Some(e) => st.(text := e.content, selected := Some(id))
  }

  /** `entries.filter(e => e.id !== id)`: every entry with another id, as
      many times as before, and none with this id. */
  function RemoveId(es: seq<Entry>, id: string): (r: seq<Entry>)
    ensures forall e: Entry :: e.id != id ==> multiset(r)[e] == multiset(es)[e]
    ensures forall e: Entry :: e.id == id ==> multiset(r)[e] == 0
  {
    if |es| == 0 then []
    else
      var rest := RemoveId(es[1..], id);
      assert es == [es[0]] + es[1..];
      assert multiset(es) == multiset([es[0]]) + multiset(es[1..]);
      if es[0].id == id then rest
      else
        assert multiset([es[0]] + rest) == multiset([es[0]]) + multiset(rest);
        [es[0]] + rest
  }

  /** `filter` keeps the order: removing from a concatenation removes from
      each part in turn. */
  lemma {:induction false} RemoveIdAppend(a: seq<Entry>, b: seq<Entry>, id: string)
    ensures RemoveId(a + b, id) == RemoveId(a, id) + RemoveId(b, id)
    decreases |a|
  {
    if |a| > 0 {
      assert (a + b)[0] == a[0];
      assert (a + b)[1..] == a[1..] + b;
      RemoveIdAppend(a[1..], b, id);
    } else {
      assert a + b == b;
    }
  }

  /** On a single entry, `filter` keeps it exactly when its id differs. */
  lemma RemoveIdSingle(e: Entry, id: string)
    ensures RemoveId([e], id) == if e.id == id then [] else [e]
  {
    assert [e][1..] == [];
  }

  /** The ids left after a removal are the old ones without `id`. */
  lemma RemoveIdIds(es: seq<Entry>, id: string)
    ensures Ids(RemoveId(es, id)) == Ids(es) - {id}
  {
    var r := RemoveId(es, id);
    forall x | x in Ids(r) ensures x in Ids(es) - {id} {
      var e :| e in r && e.id == x;
      assert multiset(r)[e] > 0;
    }
    forall x | x in Ids(es) - {id} ensures x in Ids(r) {
      var e :| e in es && e.id == x;
      assert multiset(es)[e] > 0;
    }
  }

  /** Removal keeps the ids unique. */
  lemma {:induction false} RemoveIdUnique(es: seq<Entry>, id: string)
    requires UniqueIds(es)
    ensures UniqueIds(RemoveId(es, id))
  {
    if |es| > 0 {
      var rest := RemoveId(es[1..], id);
      RemoveIdUnique(es[1..], id);
      if es[0].id != id {
        RemoveIdIds(es[1..], id);
        HeadIdNotInTail(es);
        ConsUnique(es[0], rest);
      }
    }
  }

  /** An entry whose id is new can go in front of a list with unique ids. */
  lemma ConsUnique(e: Entry, rest: seq<Entry>)
    requires UniqueIds(rest) && e.id !in Ids(rest)
    ensures UniqueIds([e] + rest)
  {
    var r := [e] + rest;
    forall i, j | 0 <= i < j < |r|
      ensures r[i].id != r[j].id
    {
      if i == 0 {
        assert r[j] in rest;
      } else {
        assert r[i] == rest[i - 1] && r[j] == rest[j - 1];
      }
    }
  }

  lemma HeadIdNotInTail(es: seq<Entry>)
    requires |es| > 0 && UniqueIds(es)
    ensures es[0].id !in Ids(es[1..])
  {
    forall e | e in es[1..] ensures e.id != es[0].id {
      var k :| 0 <= k < |es[1..]| && es[1..][k] == e;
      assert es[k + 1] == e;
    }
  }

  /** The head of what is left is the first entry with another id: all the
      entries in front of it carried the removed id. */
  lemma {:induction false} RemoveIdHead(es: seq<Entry>, id: string)
    requires |RemoveId(es, id)| > 0
    ensures exists k :: (0 <= k < |es| && es[k] == RemoveId(es, id)[0] && (forall j :: 0 <= j < k ==> es[j].id == id))
  {
    RemoveIdHeadAt(es, id);
    var k := FirstKept(es, id);
    assert 0 <= k < |es| && es[k] == RemoveId(es, id)[0] && (forall j :: 0 <= j < k ==> es[j].id == id);
  }

  /** The position of the first entry with another id, or the length of the
      list when every entry has this one. */
  function FirstKept(es: seq<Entry>, id: string): (k: nat)
    ensures k <= |es|
    ensures k < |es| ==> es[k].id != id
    ensures forall j :: 0 <= j < k ==> es[j].id == id
  {
    if |es| == 0 then 0
    else if es[0].id != id then 0
    else
      var k := FirstKept(es[1..], id);
      assert forall j :: 1 <= j < k + 1 ==> es[j] == es[1..][j - 1];
      1 + k
  }

  /** The head of the filtered list sits at the first position with another id. */
  lemma {:induction false} RemoveIdHeadAt(es: seq<Entry>, id: string)
    requires |RemoveId(es, id)| > 0
    ensures FirstKept(es, id) < |es| && RemoveId(es, id)[0] == es[FirstKept(es, id)]
  {
    if es[0].id != id {
      assert RemoveId(es, id) == [es[0]] + RemoveId(es[1..], id);
    } else {
      assert RemoveId(es, id) == RemoveId(es[1..], id);
      RemoveIdHeadAt(es[1..], id);
      assert es[1 + FirstKept(es[1..], id)] == es[1..][FirstKept(es[1..], id)];
    }
  }

  /** `deleteEntry(id)`: drop every entry with that id. When the selected
      entry goes, select the new head of the list, or start a new entry when
      the list is left empty; otherwise the selection and text stay. */
  function DeleteEntry(st: Editor, id: string, f: Fresh): (r: Editor)
    ensures st.selected != Some(id) ==>
      r == st.(entries := RemoveId(st.entries, id))
    ensures st.selected == Some(id) && |RemoveId(st.entries, id)| > 0 ==>
      && r.entries == RemoveId(st.entries, id)
      && r.selected == Some(r.entries[0].id)
      && r.text == r.entries[0].content
      && r.placeholder == st.placeholder
    ensures st.selected == Some(id) && |RemoveId(st.entries, id)| == 0 ==>
      && r.entries == [NewEntry(f)] && r.selected == Some(f.id) && r.text == ""
      && r.placeholder == f.placeholder
  {
    var kept := RemoveId(st.entries, id);
    var st1 := st.(entries := kept);
    if st.selected == Some(id) then
      if |kept| > 0 then st1.(selected := Some(kept[0].id), text := kept[0].content)
      else CreateNewEntry(st1, f)
    else st1
  }

  /** The editor's `onChange`: the typed text replaces the editor text. */
  function SetText(st: Editor, text: string): Editor {
    st.(text := text)
  }

  /** The selection as the effect's `if (selectedEntryId)` sees it: the
      empty id is falsy, so it counts as no selection. */
  predicate Truthy(sel: Option<string>) {
    sel.Some? && sel.value != ""
  }

  /** The effect that runs when the editor text has changed: save the text
      into the selected entry, if there is a (non-empty) selection and it is
      in the list. */
  function Autosave(before: Editor, after: Editor): (r: Editor)
    ensures r.selected == after.selected && r.text == after.text && r.placeholder == after.placeholder
    ensures |r.entries| == |after.entries| && Ids(r.entries) == Ids(after.entries)
    ensures UniqueIds(after.entries) ==> UniqueIds(r.entries)
    ensures before.text == after.text || !Truthy(after.selected) || after.selected.value !in Ids(after.entries) ==>
      r == after
    ensures before.text != after.text && Truthy(after.selected) && after.selected.value in Ids(after.entries) ==>
      && r == SaveEntry(after, Find(after.entries, after.selected.value).value)
      && Find(r.entries, after.selected.value).Some?
      && Find(r.entries, after.selected.value).value.content == after.text
      && Find(r.entries, after.selected.value).value.previewText == Preview(after.text)
    ensures forall k :: 0 <= k < |after.entries| && Some(after.entries[k].id) != after.selected ==>
      r.entries[k] == after.entries[k]
  {
    if before.text == after.text || !Truthy(after.selected) then after
    else
      match Find(after.entries, after.selected.value)
      case None => after
      case Some(e) =>
        var r := SaveEntry(after, e);
        SameIds(after.entries, r.entries);
        SavedIsFound(after, e);
        r
  }

  lemma SameIds(a: seq<Entry>, b: seq<Entry>)
    requires |a| == |b|
    requires forall k :: 0 <= k < |a| ==> a[k].id == b[k].id
    ensures Ids(a) == Ids(b)
    ensures UniqueIds(a) ==> UniqueIds(b)
  {
    forall x | x in Ids(a) ensures x in Ids(b) {
      var e :| e in a && e.id == x;
      var k :| 0 <= k < |a| && a[k] == e;
      assert b[k] in b;
    }
    forall x | x in Ids(b) ensures x in Ids(a) {
      var e :| e in b && e.id == x;
      var k :| 0 <= k < |b| && b[k] == e;
      assert a[k] in a;
    }
  }

  lemma SavedIsFound(st: Editor, e: Entry)
    requires e.id in Ids(st.entries)
    ensures var r := SaveEntry(st, e);
      && Find(r.entries, e.id).Some?
      && Find(r.entries, e.id).value.content == st.text
      && Find(r.entries, e.id).value.previewText == Preview(st.text)
  {
    var updated := e.(content := st.text, previewText := Preview(st.text));
    ReplacedIsFound(st.entries, updated);
  }

  /** After the replacement, the first entry with the id is the new one. */
  lemma ReplacedIsFound(es: seq<Entry>, u: Entry)
    requires u.id in Ids(es)
    ensures Find(ReplaceById(es, u), u.id) == Some(u)
  {
    var r := ReplaceById(es, u);
    var x :| x in es && x.id == u.id;
    var i :| 0 <= i < |es| && es[i] == x;
    assert r[i] == u;
    var k := FirstIndex(r, u.id);
    assert k <= i;
    assert es[k].id == u.id;
  }

  /** Every entry is selected and shows its content: the ids are unique and
      non-empty, the selection names an entry in the list, and the editor
      text is that entry's content. */
  predicate Valid(st: Editor) {
    && UniqueIds(st.entries)
    && "" !in Ids(st.entries)
    && st.selected.Some?
    && Find(st.entries, st.selected.value).Some?
    && Find(st.entries, st.selected.value).value.content == st.text
  }

  /** The selection names an entry of a list with unique, non-empty ids; the editor
      text may not yet have been saved into it. */
  predicate Selectable(st: Editor) {
    && UniqueIds(st.entries)
    && "" !in Ids(st.entries)
    && st.selected.Some?
    && st.selected.value in Ids(st.entries)
  }

  /** The autosave effect completes a state whose selection is sound: after
      it, the selected entry holds the editor text. */
  lemma AutosaveRestores(before: Editor, after: Editor)
    requires Selectable(after)
    requires before.text == after.text ==> Valid(after)
    ensures Valid(Autosave(before, after))
  {
  }

  /** With unique, non-empty stored ids, loading selects an entry that shows its text. */
  lemma LoadEntriesValid(st: Editor, stored: Option<seq<Entry>>, f: Fresh)
    requires stored.Some? ==> UniqueIds(stored.value) && "" !in Ids(stored.value)
    requires stored.None? ==> UniqueIds(st.entries) && "" !in Ids(st.entries) && f.id !in Ids(st.entries)
    requires f.id != ""
    ensures Valid(LoadEntries(st, stored, f))
  {
    var r := LoadEntries(st, stored, f);
    if stored.Some? && |stored.value| > 0 {
      assert stored.value[0] in stored.value;
    } else if stored.Some? {
      assert r.entries == [NewEntry(f)];
    }
  }

  /** A new entry with a fresh, non-empty id keeps the state valid. */
  lemma CreateKeepsValid(st: Editor, f: Fresh)
    requires UniqueIds(st.entries) && "" !in Ids(st.entries)
    requires f.id !in Ids(st.entries) && f.id != ""
    ensures Valid(CreateNewEntry(st, f))
  {
    var r := CreateNewEntry(st, f);
    assert r.entries[0] in r.entries;
  }

  /** Selecting an entry keeps the state valid. */
  lemma LoadEntryKeepsValid(st: Editor, id: string)
    requires Valid(st)
    ensures Valid(LoadEntry(st, id))
  {
  }

  /** Deleting an entry leaves a sound selection: another entry's selection
      survives, and a deleted selection moves to the head or to a new entry. */
  lemma DeleteKeepsSelectable(st: Editor, id: string, f: Fresh)
    requires Valid(st) && f.id != ""
    ensures Selectable(DeleteEntry(st, id, f))
    ensures st.selected != Some(id) ==> Valid(DeleteEntry(st, id, f))
  {
    var kept := RemoveId(st.entries, id);
    RemoveIdIds(st.entries, id);
    RemoveIdUnique(st.entries, id);
    var r := DeleteEntry(st, id, f);
    if st.selected != Some(id) {
      var sel := st.selected.value;
      var e := Find(kept, sel).value;
      assert multiset(kept)[e] > 0;
      assert e in st.entries;
    } else if |kept| > 0 {
      assert kept[0] in kept;
    } else {
      assert r.entries == [NewEntry(f)];
    }
  }
}

=== FILE: js_number.dfy ===
/** The JavaScript number built-ins the timer uses on whole numbers:
    `toString`, the `%` operator and `parseInt(_, 10)`. Numbers are modelled
    as unbounded integers. */
module JsNumber {
  import opened Wrappers
  import opened JsText

  predicate IsDigit(c: char) {
    '0' <= c <= '9'
  }

  predicate AllDigits(s: string) {
    forall k :: 0 <= k < |s| ==> IsDigit(s[k])
  }

  function DigitValue(c: char): (d: nat)
    requires IsDigit(c)
    ensures d < 10
  {
    c as int - '0' as int
  }

  function DigitChar(d: nat): (c: char)
    requires d < 10
    ensures IsDigit(c) && DigitValue(c) == d
  {
    ('0' as int + d) as char
  }

  /** The number a string of decimal digits denotes, most significant first. */
  function Value(ds: string): nat
    requires AllDigits(ds)
  {
    if |ds| == 0 then 0 else Value(ds[..|ds| - 1]) * 10 + DigitValue(ds[|ds| - 1])
  }

  /** Leading zeros do not change the value of a digit string. */
  lemma {:induction false} ValueLeadingZero(ds: string)
    requires AllDigits(ds)
    ensures AllDigits("0" + ds) && Value("0" + ds) == Value(ds)
  {
    if |ds| > 0 {
      var z := "0" + ds;
      assert z[..|z| - 1] == "0" + ds[..|ds| - 1];
      ValueLeadingZero(ds[..|ds| - 1]);
    }
  }

  /** The decimal text of a non-negative integer, as `Number.prototype.toString`
      writes it: at least one digit, no leading zero, denoting `n`. */
  function NatStr(n: nat): (r: string)
    ensures |r| > 0 && AllDigits(r)
    ensures Value(r) == n
    ensures |r| > 1 ==> r[0] != '0'
    ensures n < 10 <==> |r| == 1
  {
    if n < 10 then [DigitChar(n)]
    else
      var r := NatStr(n / 10) + [DigitChar(n % 10)];
      assert r[..|r| - 1] == NatStr(n / 10);
      r
  }

  /** `Number.prototype.toString` on any integer: a minus sign before the
      digits of a negative number. */
  function IntStr(n: int): (r: string)
    ensures n >= 0 ==> r == NatStr(n)
    ensures n < 0 ==> r == "-" + NatStr(-n)
  {
    if n < 0 then "-" + NatStr(-n) else NatStr(n)
  }

  /** `Math.trunc(a / b)` for a positive divisor: the quotient rounded toward zero. */
  function JsTrunc(a: int, b: int): int
    requires b > 0
  {
    if a >= 0 then a / b else -((-a) / b)
  }

  /** JavaScript's `a % b` for a positive divisor: what is left after taking
      out the quotient rounded toward zero, so the remainder takes the sign of
      the dividend, unlike Dafny's Euclidean `%`. */
  function JsRem(a: int, b: int): (r: int)
    requires b > 0
    ensures a == JsTrunc(a, b) * b + r
    ensures a >= 0 ==> 0 <= r < b
    ensures a < 0 ==> -b < r <= 0
  {
    if a >= 0 then a % b
    else
      assert -a == ((-a) / b) * b + (-a) % b;
      -((-a) % b)
  }

  /** The longest prefix of `s` made of decimal digits. */
  function DigitPrefix(s: string): (r: string)
    ensures |r| <= |s| && r == s[..|r|] && AllDigits(r)
    ensures |r| < |s| ==> !IsDigit(s[|r|])
  {
    if |s| > 0 && IsDigit(s[0]) then [s[0]] + DigitPrefix(s[1..]) else ""
  }

  /** The text after an optional leading `+` or `-`. */
  function SkipSign(t: string): (u: string)
    ensures |u| <= |t| && u == t[|t| - |u|..]
    ensures |t| > 0 && (t[0] == '-' || t[0] == '+') <==> |u| < |t|
  {
    if |t| > 0 && (t[0] == '-' || t[0] == '+') then t[1..] else t
  }

  /** `parseInt(s, 10)`: skip leading whitespace, read an optional sign, then
      the longest run of decimal digits; `NaN` (None) when that run is empty. */
  function ParseInt(s: string): (r: Option<int>)
    ensures r.Some? ==> exists k :: 0 <= k < |s| && IsDigit(s[k])
  {
    var t := TrimStart(s);
    var r := ParseSigned(t);
    assert r.Some? ==> IsDigit(s[|s| - |t| + |t| - |SkipSign(t)|]);
    r
  }

  /** The sign and digits `parseInt` reads once whitespace is skipped. */
  function ParseSigned(t: string): (r: Option<int>)
    ensures r.Some? <==> |DigitPrefix(SkipSign(t))| > 0
    ensures r.Some? ==> |t| > 0
    ensures r.Some? ==> (if r.value < 0 then -r.value else r.value) == Value(DigitPrefix(SkipSign(t)))
    ensures r.Some? && r.value < 0 ==> t[0] == '-'
    ensures r.Some? && r.value > 0 ==> t[0] != '-'
  {
    var ds := DigitPrefix(SkipSign(t));
    if |ds| == 0 then None
    else
      var v: int := Value(ds);
      Some(if |t| > 0 && t[0] == '-' then -v else v)
  }

  /** `x || 0` on the result of `parseInt`: `NaN` becomes 0. */
  function OrZero(r: Option<int>): (v: int)
    ensures r.None? ==> v == 0
    ensures r.Some? ==> v == r.value
  {
    match r
    case None => 0
    case Some(v) => if v == 0 then 0 else v
  }

  /** A run of digits followed by a non-digit (or nothing) reads as its value. */
  lemma ParseIntDigits(ds: string, rest: string)
    requires |ds| > 0 && AllDigits(ds)
    requires |rest| > 0 ==> !IsDigit(rest[0])
    ensures ParseInt(ds + rest) == Some(Value(ds))
  {
    var s := ds + rest;
    assert s[0] == ds[0];
    ParseIntStartsAt(s);
    assert SkipSign(s) == s;
    DigitPrefixOf(ds, rest);
  }

  /** A string of nothing but digits reads as its value. */
  lemma ParseIntAllDigits(ds: string)
    requires |ds| > 0 && AllDigits(ds)
    ensures ParseInt(ds) == Some(Value(ds))
  {
    assert ds + "" == ds;
    ParseIntDigits(ds, "");
  }

  /** A minus sign in front of a run of digits negates its value. */
  lemma ParseIntNegative(ds: string, rest: string)
    requires |ds| > 0 && AllDigits(ds)
    requires |rest| > 0 ==> !IsDigit(rest[0])
    ensures ParseInt("-" + ds + rest) == Some(-(Value(ds) as int))
  {
    var u := ds + rest;
    var s := "-" + u;
    assert "-" + ds + rest == s;
    assert s[0] == '-';
    ParseIntStartsAt(s);
    assert SkipSign(s) == u;
    DigitPrefixOf(ds, rest);
    ParseSignedNegative(s, ds);
  }

  /** A plus sign in front of a run of digits leaves its value as it is. */
  lemma ParseIntPositive(ds: string, rest: string)
    requires |ds| > 0 && AllDigits(ds)
    requires |rest| > 0 ==> !IsDigit(rest[0])
    ensures ParseInt("+" + ds + rest) == Some(Value(ds))
  {
    var u := ds + rest;
    var s := "+" + u;
    assert "+" + ds + rest == s;
    assert s[0] == '+';
    ParseIntStartsAt(s);
    assert SkipSign(s) == u;
    DigitPrefixOf(ds, rest);
  }

  lemma ParseSignedNegative(t: string, ds: string)
    requires |t| > 0 && t[0] == '-'
    requires DigitPrefix(SkipSign(t)) == ds && |ds| > 0
    ensures ParseSigned(t) == Some(-(Value(ds) as int))
  {
  }

  lemma ParseIntStartsAt(s: string)
    requires |s| > 0 && !IsWhitespace(s[0])
    ensures ParseInt(s) == ParseSigned(s)
  {
  }

  /** Leading whitespace is skipped. */
  lemma ParseIntSkipsWhitespace(w: string, s: string)
    requires AllWhitespace(w)
    ensures ParseInt(w + s) == ParseInt(s)
  {
    TrimStartSkips(w, s);
  }

  /** Text without a single digit is `NaN`. */
  lemma ParseIntNoDigits(s: string)
    requires forall k :: 0 <= k < |s| ==> !IsDigit(s[k])
    ensures ParseInt(s) == None
  {
  }

  lemma {:induction false} DigitPrefixOf(ds: string, rest: string)
    requires AllDigits(ds)
    requires |rest| > 0 ==> !IsDigit(rest[0])
    ensures DigitPrefix(ds + rest) == ds
  {
    if |ds| > 0 {
      assert (ds + rest)[1..] == ds[1..] + rest;
      DigitPrefixOf(ds[1..], rest);
    }
  }

  lemma {:induction false} TrimStartSkips(w: string, s: string)
    requires AllWhitespace(w)
    ensures TrimStart(w + s) == TrimStart(s)
  {
    if |w| > 0 {
      assert (w + s)[1..] == w[1..] + s;
      TrimStartSkips(w[1..], s);
    } else {
      assert w + s == s;
    }
  }
}

=== FILE: js_text.dfy ===
/** The JavaScript string built-ins the journaling page relies on.
    A `char` here stands for one UTF-16 code unit of a JavaScript string. */
module JsText {

  /** The ECMAScript WhiteSpace and LineTerminator code points: what
      `String.prototype.trim` strips and what `parseInt` skips. */
  predicate IsWhitespace(c: char) {
    || c == '\t' || c == '\n' || c == '\U{000B}' || c == '\U{000C}' || c == '\r'
    || c == ' ' || c == '\U{00A0}' || c == '\U{1680}'
    || ('\U{2000}' <= c <= '\U{200A}')
    || c == '\U{2028}' || c == '\U{2029}' || c == '\U{202F}' || c == '\U{205F}'
    || c == '\U{3000}' || c == '\U{FEFF}'
  }

  predicate AllWhitespace(s: string) {
    forall k :: 0 <= k < |s| ==> IsWhitespace(s[k])
  }

  /** `s.trimStart()`: the suffix of `s` left after dropping leading whitespace. */
  function TrimStart(s: string): (r: string)
    ensures |r| <= |s| && r == s[|s| - |r|..]
    ensures AllWhitespace(s[..|s| - |r|])
    ensures |r| > 0 ==> !IsWhitespace(r[0])
  {
    if |s| > 0 && IsWhitespace(s[0]) then TrimStart(s[1..]) else s
  }

  /** `s.trimEnd()`: the prefix of `s` left after dropping trailing whitespace. */
  function TrimEnd(s: string): (r: string)
    ensures |r| <= |s| && r == s[..|r|]
    ensures AllWhitespace(s[|r|..])
    ensures |r| > 0 ==> !IsWhitespace(r[|r| - 1])
  {
    if |s| > 0 && IsWhitespace(s[|s| - 1]) then TrimEnd(s[..|s| - 1]) else s
  }

  /** `r` is what is left of `s` after removing `i` whitespace characters in
      front and all whitespace behind. */
  predicate TrimmedAt(s: string, r: string, i: nat) {
    && i + |r| <= |s|
    && r == s[i..i + |r|]
    && AllWhitespace(s[..i])
    && AllWhitespace(s[i + |r|..])
  }

  /** `s.trim()`: `s` without its leading and trailing whitespace. */
  function Trim(s: string): (r: string)
    ensures exists i: nat :: TrimmedAt(s, r, i)
    ensures |r| <= |s|
    ensures |r| > 0 ==> !IsWhitespace(r[0]) && !IsWhitespace(r[|r| - 1])
  {
    var t := TrimStart(s);
    var r := TrimEnd(t);
    TrimmedFromEnds(s, t, r);
    r
  }

  /** Whitespace dropped in front of `s` to leave `t`, then behind `t` to
      leave `r`, is whitespace dropped around `r` in `s`. */
  lemma TrimmedFromEnds(s: string, t: string, r: string)
    requires |t| <= |s| && t == s[|s| - |t|..] && AllWhitespace(s[..|s| - |t|])
    requires |t| > 0 ==> !IsWhitespace(t[0])
    requires |r| <= |t| && r == t[..|r|] && AllWhitespace(t[|r|..])
    requires |r| > 0 ==> !IsWhitespace(r[|r| - 1])
    ensures TrimmedAt(s, r, |s| - |t|)
    ensures exists i: nat :: TrimmedAt(s, r, i)
    ensures |r| <= |s|
    ensures |r| > 0 ==> !IsWhitespace(r[0]) && !IsWhitespace(r[|r| - 1])
  {
    var i: nat := |s| - |t|;
    assert s[i + |r|..] == t[|r|..];
    assert TrimmedAt(s, r, i);
    assert |r| > 0 ==> r[0] == t[0];
  }

  /** A string with no whitespace at either end is its own trim. */
  lemma TrimOfTrimmed(s: string)
    requires |s| > 0 ==> !IsWhitespace(s[0]) && !IsWhitespace(s[|s| - 1])
    ensures Trim(s) == s
  {
  }

  /** `s.replace(/x/g, y)` for a single-character pattern `x`. */
  function ReplaceAll(s: string, x: char, y: char): (r: string)
    ensures |r| == |s|
    ensures forall k :: 0 <= k < |s| ==> r[k] == (if s[k] == x then y else s[k])
  {
    if |s| == 0 then "" else [if s[0] == x then y else s[0]] + ReplaceAll(s[1..], x, y)
  }

  /** `s.slice(0, n)` for `n >= 0`. */
  function SliceTo(s: string, n: nat): (r: string)
    ensures |r| == if n < |s| then n else |s|
    ensures r == s[..|r|]
  {
    if n < |s| then s[..n] else s
  }

  /** A character absent from a string is absent from its every prefix. */
  lemma SliceKeepsAbsent(s: string, n: nat, c: char)
    requires c !in s
    ensures c !in SliceTo(s, n)
  {
    var r := SliceTo(s, n);
    assert forall k :: 0 <= k < |r| ==> r[k] == s[k];
  }

  /** `s.padStart(width, fill)` with a one-character fill string. */
  function PadStart(s: string, width: nat, fill: char): (r: string)
    ensures |r| == if |s| < width then width else |s|
    ensures r[|r| - |s|..] == s
    ensures forall k :: 0 <= k < |r| - |s| ==> r[k] == fill
  {
    if |s| < width then seq(width - |s|, _ => fill) + s else s
  }

  /** The separators put back between the parts of a split. */
  function Join(parts: seq<string>, sep: char): (s: string)
    requires |parts| > 0
  {
    if |parts| == 1 then parts[0] else parts[0] + [sep] + Join(parts[1..], sep)
  }

  /** `s.split(sep)` for a one-character separator: the maximal pieces of `s`
      between occurrences of `sep`. */
  function Split(s: string, sep: char): (parts: seq<string>)
    ensures |parts| > 0
    ensures forall k :: 0 <= k < |parts| ==> sep !in parts[k]
  {
    if |s| == 0 then [""]
    else
      var rest := Split(s[1..], sep);
      if s[0] == sep then [""] + rest
      else [[s[0]] + rest[0]] + rest[1..]
  }

  /** A split has one more piece than `s` has separators. */
  lemma {:induction false} SplitCount(s: string, sep: char)
    ensures |Split(s, sep)| == multiset(s)[sep] + 1
  {
    if |s| > 0 {
      SplitCount(s[1..], sep);
      assert s == [s[0]] + s[1..];
      assert multiset(s) == multiset([s[0]]) + multiset(s[1..]);
    }
  }

  /** Joining the pieces of a split with the separator gives back `s`. */
  lemma {:induction false} SplitJoin(s: string, sep: char)
    ensures Join(Split(s, sep), sep) == s
  {
    if |s| > 0 {
      var rest := Split(s[1..], sep);
      SplitJoin(s[1..], sep);
      if s[0] == sep {
        assert Split(s, sep) == [""] + rest;
        assert ([""] + rest)[1..] == rest;
      } else {
        var parts := [[s[0]] + rest[0]] + rest[1..];
        assert Split(s, sep) == parts;
        if |rest| == 1 {
          assert Join(parts, sep) == [s[0]] + rest[0];
        } else {
          assert parts[1..] == rest[1..];
          assert Join(parts, sep) == [s[0]] + rest[0] + [sep] + Join(rest[1..], sep);
        }
      }
    }
  }

  /** Splitting a string with exactly one separator gives the two sides. */
  lemma SplitAtSingleSeparator(a: string, b: string, sep: char)
    requires sep !in a && sep !in b
    ensures Split(a + [sep] + b, sep) == [a, b]
  {
    var s := a + [sep] + b;
    assert multiset(s)[sep] == 1 by {
      assert multiset(s) == multiset(a) + multiset([sep]) + multiset(b);
    }
    var parts := Split(s, sep);
    SplitCount(s, sep);
    SplitJoin(s, sep);
    assert |parts| == 2;
    var a', b' := parts[0], parts[1];
    assert s == a' + [sep] + b' by {
      assert Join(parts[1..], sep) == b';
    }
    SeparatorSplitUnique(a, b, a', b', sep);
  }

  lemma SeparatorSplitUnique(a: string, b: string, a': string, b': string, sep: char)
    requires sep !in a && sep !in b && sep !in a' && sep !in b'
    requires a + [sep] + b == a' + [sep] + b'
    ensures a == a' && b == b'
  {
    var s := a + [sep] + b;
    assert |a| == |a'| by {
      assert s[|a|] == sep;
    }
    assert a == s[..|a|] == a';
    assert b == s[|a| + 1..] == b';
  }
}

=== FILE: time_format.dfy ===
/** The focus timer's text form: `formatTime` renders seconds as `M:SS` and
    `parseTimeInput` reads a typed `M:S` back, falling back to fifteen minutes. */
module TimeFormat {
  import opened Wrappers
  import opened JsText
  import opened JsNumber

  /** The duration, in seconds, that malformed timer text stands for. */
  const DefaultSeconds := 900

  /** The seconds field of the display: `secs.toString().padStart(2, "0")`. */
  function SecondsField(secs: int): string {
    PadStart(IntStr(secs), 2, '0')
  }

  /** `formatTime`: the minutes rounded down, unpadded, then a colon, then the
      remainder in JavaScript's sign convention padded to two characters.
      The text always holds exactly one colon; a negative count shows a
      leading minus sign. */
  function FormatTime(seconds: int): (r: string)
    ensures multiset(r)[':'] == 1
    ensures seconds < 0 ==> r[0] == '-'
  {
    var m := IntStr(seconds / 60);
    var ss := SecondsField(JsRem(seconds, 60));
    NoColonInNumber(seconds / 60);
    NoColonInNumber(JsRem(seconds, 60));
    OneColon(m, ss);
    m + ":" + ss
  }

  /** For a non-negative count the display ends in a colon and two digits:
      the digits before the colon denote the whole minutes, the two after it
      the seconds left over. */
  lemma FormatTimeDigits(seconds: int)
    requires seconds >= 0
    ensures var r := FormatTime(seconds);
      && |r| >= 4 && r[|r| - 3] == ':'
      && AllDigits(r[..|r| - 3]) && Value(r[..|r| - 3]) == seconds / 60
      && AllDigits(r[|r| - 2..]) && Value(r[|r| - 2..]) == seconds % 60
  {
    var m := NatStr(seconds / 60);
    var ss := SecondsField(seconds % 60);
    FormatTimeNonNegative(seconds);
    SecondsFieldDigits(seconds % 60);
    DisplayPieces(m, ss);
  }

  /** The display of a non-negative count, piece by piece. */
  lemma FormatTimeNonNegative(seconds: int)
    requires seconds >= 0
    ensures FormatTime(seconds) == NatStr(seconds / 60) + ":" + SecondsField(seconds % 60)
  {
    assert JsRem(seconds, 60) == seconds % 60;
    assert IntStr(seconds / 60) == NatStr(seconds / 60);
  }

  lemma DisplayPieces(m: string, ss: string)
    requires |ss| == 2
    ensures var r := m + ":" + ss;
      |r| == |m| + 3 && r[..|r| - 3] == m && r[|r| - 3] == ':' && r[|r| - 2..] == ss
  {
  }

  lemma OneColon(m: string, ss: string)
    requires ':' !in m && ':' !in ss
    ensures multiset(m + ":" + ss)[':'] == 1
  {
    assert multiset(m + ":" + ss) == multiset(m) + multiset(":") + multiset(ss);
  }

  lemma NoColonInNumber(n: int)
    ensures ':' !in IntStr(n) && ':' !in SecondsField(n)
  {
    var t := IntStr(n);
    var digits := NatStr(if n < 0 then -n else n);
    assert forall k :: 0 <= k < |digits| ==> digits[k] != ':';
    assert forall k :: 0 <= k < |t| ==> t[k] != ':';
    var p := SecondsField(n);
    assert forall k :: 0 <= k < |p| - |t| ==> p[k] != ':';
    assert forall k :: |p| - |t| <= k < |p| ==> p[k] == t[k - (|p| - |t|)];
  }

  /** A seconds remainder below a minute is written as exactly two digits
      that denote it. */
  lemma SecondsFieldDigits(secs: nat)
    requires secs < 60
    ensures |SecondsField(secs)| == 2 && AllDigits(SecondsField(secs))
    ensures Value(SecondsField(secs)) == secs
  {
    var d := NatStr(secs);
    if secs < 10 {
      assert SecondsField(secs) == "0" + d;
      ValueLeadingZero(d);
    } else {
      assert SecondsField(secs) == d;
    }
  }

  /** `parseTimeInput`: text with exactly one colon reads as minutes and
      seconds, each through `parseInt(_, 10) || 0`; any other text is the
      fifteen-minute default. */
  function ParseTimeInput(input: string): (r: int)
    ensures multiset(input)[':'] != 1 ==> r == DefaultSeconds
  {
    var parts := Split(input, ':');
    SplitCount(input, ':');
    if |parts| == 2 then OrZero(ParseInt(parts[0])) * 60 + OrZero(ParseInt(parts[1]))
    else DefaultSeconds
  }

  /** Text with one colon reads as the minutes before it times sixty plus the
      seconds after it; a side without a number counts as zero. */
  lemma ParseTimeInputParts(a: string, b: string)
    requires ':' !in a && ':' !in b
    ensures ParseTimeInput(a + ":" + b) == OrZero(ParseInt(a)) * 60 + OrZero(ParseInt(b))
  {
    SplitAtSingleSeparator(a, b, ':');
  }

  /** Reading back what the display shows gives the same number of seconds,
      for every non-negative count. */
  lemma ParseFormatRoundTrip(seconds: int)
    requires seconds >= 0
    ensures ParseTimeInput(FormatTime(seconds)) == seconds
  {
    var m := NatStr(seconds / 60);
    var ss := SecondsField(seconds % 60);
    FormatTimeNonNegative(seconds);
    SecondsFieldDigits(seconds % 60);
    ParseDigitPair(m, ss);
    MinutesAndSeconds(seconds);
  }

  lemma MinutesAndSeconds(n: nat)
    ensures n / 60 * 60 + n % 60 == n
  {
  }

  /** Two runs of digits around a colon read as the first one's value times
      sixty plus the second one's. */
  lemma ParseDigitPair(m: string, ss: string)
    requires |m| > 0 && AllDigits(m) && |ss| > 0 && AllDigits(ss)
    ensures ParseTimeInput(m + ":" + ss) == Value(m) * 60 + Value(ss)
  {
    NoColonInDigits(m);
    NoColonInDigits(ss);
    ParseTimeInputParts(m, ss);
    ParseIntAllDigits(m);
    ParseIntAllDigits(ss);
  }

  lemma NoColonInDigits(ds: string)
    requires AllDigits(ds)
    ensures ':' !in ds
  {
    assert forall k :: 0 <= k < |ds| ==> ds[k] != ':';
  }

  /** A negative count does not survive the display: -55 seconds is shown as
      `-1:-55`, which reads back as -115. */
  lemma NegativeCountDrifts()
    ensures FormatTime(-55) == "-1:-55"
    ensures ParseTimeInput(FormatTime(-55)) == -115
  {
    FormatMinusFiftyFive();
    ParseMinusFiftyFive();
  }

  lemma FormatMinusFiftyFive()
    ensures FormatTime(-55) == "-1:-55"
  {
    assert "-1:-55" == "-1" + ":" + "-55";
    assert IntStr(-1) == "-1";
    assert JsRem(-55, 60) == -55;
    assert SecondsField(-55) == "-55" by {
      assert NatStr(55) == "55";
    }
  }

  lemma ParseMinusFiftyFive()
    ensures ParseTimeInput("-1:-55") == -115
  {
    assert "-1:-55" == "-1" + ":" + "-55";
    ParseTimeInputParts("-1", "-55");
    ParseMinusOne();
    ParseMinusFiftyFiveSeconds();
  }

  lemma ParseMinusOne()
    ensures ParseInt("-1") == Some(-1)
  {
    assert "-1" == "-" + "1" + "";
    ParseIntNegative("1", "");
    One();
  }

  lemma ParseMinusFiftyFiveSeconds()
    ensures ParseInt("-55") == Some(-55)
  {
    assert "-55" == "-" + "55" + "";
    ParseIntNegative("55", "");
    FiftyFive();
  }

  lemma One()
    ensures Value("1") == 1
  {
    assert "1"[..0] == "";
  }

  lemma FiftyFive()
    ensures Value("55") == 55
  {
    assert "55"[..1] == "5";
  }

  /** The worked examples of the display and the parser. */
  lemma TimeTextExamples()
    ensures FormatTime(65) == "1:05"
    ensures FormatTime(0) == "0:00"
    ensures FormatTime(900) == "15:00"
    ensures ParseTimeInput("15:00") == 900
    ensures ParseTimeInput("bad") == 900
    ensures ParseTimeInput("1:2:3") == 900
  {
    FormatSixtyFive();
    FormatZero();
    FormatFifteenMinutes();
    ParseFormatRoundTrip(900);
    NoColon();
    TwoColons();
  }

  lemma NoColon()
    ensures ParseTimeInput("bad") == 900
  {
    assert multiset("bad")[':'] == 0;
  }

  lemma TwoColons()
    ensures ParseTimeInput("1:2:3") == 900
  {
    assert multiset("1:2:3")[':'] == 2;
  }

  lemma FormatSixtyFive()
    ensures FormatTime(65) == "1:05"
  {
    assert "1:05" == "1" + ":" + "05";
    assert 65 / 60 == 1 && 65 % 60 == 5;
    FormatTimeNonNegative(65);
    NatStrOne();
    SecondsFieldFive();
  }

  lemma FormatZero()
    ensures FormatTime(0) == "0:00"
  {
    assert "0:00" == "0" + ":" + "00";
    FormatTimeNonNegative(0);
    NatStrZero();
    SecondsFieldZero();
  }

  lemma FormatFifteenMinutes()
    ensures FormatTime(900) == "15:00"
  {
    assert "15:00" == "15" + ":" + "00";
    assert 900 / 60 == 15 && 900 % 60 == 0;
    FormatTimeNonNegative(900);
    NatStrFifteen();
    SecondsFieldZero();
  }

  lemma NatStrZero() ensures NatStr(0) == "0" {}
  lemma NatStrOne() ensures NatStr(1) == "1" {}
  lemma NatStrFifteen() ensures NatStr(15) == "15" {}
  lemma SecondsFieldZero() ensures SecondsField(0) == "00" {}
  lemma SecondsFieldFive() ensures SecondsField(5) == "05" {}
}

=== FILE: timer.dfy ===
/** The focus timer: a countdown whose duration is typed as `M:S`, started,
    stopped and reset from the page's controls. The page's interval and
    timeout callbacks arrive here as the `Tick` and `ResetElapsed` events. */
module Timer {
  import opened TimeFormat

  /** The text of the duration field: either a count of seconds rendered by
      `formatTime`, or what was typed into it. */
  datatype Field = Shows(seconds: int) | Typed(typed: string) {
    function Text(): string {
      match this
      case Shows(n) => FormatTime(n)
      case Typed(t) => t
    }
  }

  /** `remaining` and `lastSet` are the countdown and the last committed
      duration in seconds; `input` is the duration field; `resetLock` is the
      guard against overlapping resets, held while a restart is pending. */
  datatype TimerState = TimerState(
    remaining: int,
    lastSet: int,
    running: bool,
    editing: bool,
    input: Field,
    resetLock: bool)

  datatype TimerEvent =
    | TimeClicked              // click on the displayed time
    | InputChanged(value: string)
    | InputBlurred
    | KeyPressed(key: string)  // a key pressed in the duration field
    | StartClicked
    | StopClicked
    | ResetClicked
    | ResetElapsed             // the restart scheduled by a reset fires
    | Tick                     // one second of the running interval

  /** Fifteen minutes, stopped, not editing, no reset pending. */
  const InitialTimer := TimerState(DefaultSeconds, DefaultSeconds, false, false, Typed("15:00"), false)

  /** Blur or Enter: the parsed field becomes both the countdown and the
      duration a reset returns to, and editing ends. */
  function Commit(s: TimerState): TimerState {
    var seconds := ParseTimeInput(s.input.Text());
    s.(remaining := seconds, lastSet := seconds, editing := false)
  }

  /** The handler the event reaches, before the page's effects run. Field
      events only occur while the field is shown, that is while editing.
      Each part of the state has its own events: only a commit while editing
      sets the duration, only a click on a stopped timer opens the field,
      only start or a pending restart sets the timer running, only reset and
      its restart move the lock, and a tick takes off at most one second. */
  function Handle(s: TimerState, ev: TimerEvent): (r: TimerState)
    ensures r.lastSet != s.lastSet ==> s.editing && (ev.InputBlurred? || ev.KeyPressed?)
    ensures r.editing && !s.editing ==> ev.TimeClicked? && !s.running
    ensures r.running && !s.running ==> ev.StartClicked? || (ev.ResetElapsed? && s.resetLock)
    ensures r.resetLock != s.resetLock ==> ev.ResetClicked? || ev.ResetElapsed?
    ensures r.remaining != s.remaining ==>
      ev.Tick? || ev.ResetClicked? || (s.editing && (ev.InputBlurred? || ev.KeyPressed?))
    ensures ev.Tick? ==> r.remaining == s.remaining || (s.running && 0 <= r.remaining == s.remaining - 1)
  {
    match ev
    case TimeClicked => if !s.running then s.(editing := true) else s
    case InputChanged(v) => if s.editing then s.(input := Typed(v)) else s
    case InputBlurred => if s.editing then Commit(s) else s
    case KeyPressed(key) =>
      if !s.editing then s
      else if key == "Enter" then Commit(s)
      else if key == "Escape" then s.(input := Shows(s.remaining), editing := false)
      else s
    case StartClicked => s.(running := true)
    case StopClicked => s.(running := false)
    case ResetClicked =>
      if s.resetLock then s
      else s.(resetLock := true, remaining := s.lastSet, input := Shows(s.lastSet), running := false)
    case ResetElapsed => if s.resetLock then s.(running := true, resetLock := false) else s
    case Tick => if s.running && s.remaining > 0 then s.(remaining := s.remaining - 1) else s
  }

  /** The timer effect, run when `running` or `remaining` changed: a
      countdown that reached zero stops. */
  function StopAtZero(before: TimerState, after: TimerState): (r: TimerState)
    ensures r == after || r == after.(running := false)
    ensures before.running == after.running && before.remaining == after.remaining ==> r == after
    ensures (before.running != after.running || before.remaining != after.remaining) && after.remaining == 0 ==> !r.running
    ensures after.remaining != 0 ==> r == after
  {
    if before.running == after.running && before.remaining == after.remaining then after
    else if after.running && after.remaining > 0 then after
    else if after.remaining == 0 then after.(running := false)
    else after
  }

  /** The display effect, run when `remaining` or `editing` changed: outside
      editing, the field shows the countdown. */
  function SyncInput(before: TimerState, after: TimerState): (r: TimerState)
    ensures r == after || r == after.(input := Shows(after.remaining))
    ensures before.remaining == after.remaining && before.editing == after.editing ==> r == after
    ensures after.editing ==> r == after
    ensures (before.remaining != after.remaining || before.editing != after.editing) && !after.editing ==>
      r.input == Shows(after.remaining)
  {
    if before.remaining == after.remaining && before.editing == after.editing then after
    else if !after.editing then after.(input := Shows(after.remaining))
    else after
  }

  /** One event and the effects it triggers. The effects touch only whether
      the timer runs and what the field shows, and they only ever stop a
      countdown that stands at zero. */
  function Step(s: TimerState, ev: TimerEvent): (r: TimerState)
    ensures var h := Handle(s, ev);
      && r.remaining == h.remaining && r.lastSet == h.lastSet
      && r.editing == h.editing && r.resetLock == h.resetLock
      && (r.running ==> h.running)
      && (r.running != h.running ==> r.remaining == 0)
      && (r.input != h.input ==> !r.editing && r.input == Shows(r.remaining))
  {
    var h := Handle(s, ev);
    SyncInput(s, StopAtZero(s, h))
  }

  function Run(s: TimerState, evs: seq<TimerEvent>): TimerState
    decreases |evs|
  {
    if |evs| == 0 then s else Run(Step(s, evs[0]), evs[1..])
  }

  /** The timer's steady state: a countdown at zero is stopped, and outside
      editing the field shows the countdown. */
  predicate Settled(s: TimerState) {
    && (s.remaining == 0 ==> !s.running)
    && (!s.editing ==> s.input == Shows(s.remaining))
  }

  /** Every event leaves the timer settled. */
  lemma StepSettled(s: TimerState, ev: TimerEvent)
    requires Settled(s)
    ensures Settled(Step(s, ev))
  {
  }

  /** The timer starts settled, so every run of events keeps it settled. */
  lemma {:induction false} RunSettled(s: TimerState, evs: seq<TimerEvent>)
    requires Settled(s)
    ensures Settled(Run(s, evs))
    decreases |evs|
  {
    if |evs| > 0 {
      StepSettled(s, evs[0]);
      RunSettled(Step(s, evs[0]), evs[1..]);
    }
  }

  /** The page starts with the field text `15:00`; the display effect that
      runs when the page mounts shows the same fifteen minutes. */
  lemma InitialDisplay()
    ensures InitialTimer.input.Text() == FormatTime(InitialTimer.remaining)
    ensures Settled(InitialTimer.(input := Shows(InitialTimer.remaining)))
  {
    FormatFifteenMinutes();
  }

  /** Blur or Enter while editing commits the parsed field to both the
      countdown and the reset duration, ends editing and shows the committed
      value. */
  lemma CommitSetsDuration(s: TimerState, ev: TimerEvent)
    requires s.editing
    requires ev == InputBlurred || ev == KeyPressed("Enter")
    ensures var r := Step(s, ev);
      && r.remaining == ParseTimeInput(s.input.Text())
      && r.lastSet == ParseTimeInput(s.input.Text())
      && !r.editing
      && r.input.Text() == FormatTime(r.remaining)
      && r.resetLock == s.resetLock
  {
  }

  /** Escape while editing discards the typed text: the field shows the
      countdown again and neither the countdown nor the duration changes. */
  lemma EscapeReverts(s: TimerState)
    requires s.editing
    ensures var r := Step(s, KeyPressed("Escape"));
      && r.remaining == s.remaining && r.lastSet == s.lastSet
      && r.running == s.running
      && !r.editing
      && r.input.Text() == FormatTime(s.remaining)
  {
  }

  /** Typing into the open field changes only its text; with the field
      closed there is nothing to type into. */
  lemma TypingChangesOnlyField(s: TimerState, v: string)
    ensures s.editing ==> Step(s, InputChanged(v)) == s.(input := Typed(v))
    ensures !s.editing ==> Step(s, InputChanged(v)) == s
  {
  }

  /** The duration can only be opened for editing while the timer is
      stopped; clicking the running time changes nothing. */
  lemma EditOnlyWhenStopped(s: TimerState)
    ensures var r := Step(s, TimeClicked);
      && (r.editing <==> s.editing || !s.running)
      && (s.running ==> r == s)
  {
  }

  /** Opening the field and leaving it without typing keeps a non-negative
      countdown and makes it the reset duration. */
  lemma ReopenKeepsCountdown(s: TimerState)
    requires Settled(s) && !s.running && !s.editing && s.remaining >= 0
    ensures var r := Run(s, [TimeClicked, InputBlurred]);
      && r.remaining == s.remaining && r.lastSet == s.remaining && !r.editing
  {
    var s1 := Step(s, TimeClicked);
    assert s1 == s.(editing := true);
    RunTwo(s, TimeClicked, InputBlurred);
    CommitSetsDuration(s1, InputBlurred);
    var shown := s1.input.Text();
    assert shown == FormatTime(s.remaining);
    ParseFormatRoundTrip(s.remaining);
  }

  lemma RunTwo(s: TimerState, a: TimerEvent, b: TimerEvent)
    ensures Run(s, [a, b]) == Step(Step(s, a), b)
  {
    assert [a, b][1..] == [b];
    assert [b][1..] == [];
    assert Run(s, [a, b]) == Run(Step(s, a), [b]);
    assert Run(Step(s, a), [b]) == Run(Step(Step(s, a), b), []);
  }

  lemma RunThree(s: TimerState, a: TimerEvent, b: TimerEvent, c: TimerEvent)
    ensures Run(s, [a, b, c]) == Run(Step(s, a), [b, c])
  {
    assert [a, b, c][1..] == [b, c];
  }

  /** A tick counts a running, positive countdown down by one second and
      stops the timer as it reaches zero; otherwise it changes nothing. */
  lemma TickCountsDown(s: TimerState)
    ensures var r := Step(s, Tick);
      && (s.running && s.remaining > 0 ==>
            r.remaining == s.remaining - 1 && r.running == (s.remaining > 1))
      && (!(s.running && s.remaining > 0) ==> r == s)
      && r.lastSet == s.lastSet && r.editing == s.editing && r.resetLock == s.resetLock
  {
  }

  /** `n` ticks in a row. */
  function Ticks(s: TimerState, n: nat): TimerState
    decreases n
  {
    if n == 0 then s else Ticks(Step(s, Tick), n - 1)
  }

  /** `n` seconds of a running countdown with time left: it never drops
      below zero, and it is still running exactly while time is left. */
  lemma {:induction false} TicksCountDown(s: TimerState, n: nat)
    requires s.running && s.remaining > 0
    ensures var r := Ticks(s, n);
      && r.remaining == (if n <= s.remaining then s.remaining - n else 0)
      && r.running == (n < s.remaining)
      && r.lastSet == s.lastSet
    decreases n
  {
    if n > 0 {
      var s1 := OneTick(s);
      if s.remaining > 1 {
        TicksCountDown(s1, n - 1);
      } else {
        IdleTicks(s1, n - 1);
      }
    }
  }

  /** The state one tick later, and what it keeps. */
  lemma OneTick(s: TimerState) returns (s1: TimerState)
    requires s.running && s.remaining > 0
    ensures s1 == Step(s, Tick)
    ensures s1.remaining == s.remaining - 1 && s1.running == (s.remaining > 1) && s1.lastSet == s.lastSet
  {
    s1 := Step(s, Tick);
    TickCountsDown(s);
  }

  /** Ticks do nothing to a stopped timer. */
  lemma {:induction false} IdleTicks(s: TimerState, n: nat)
    requires !s.running
    decreases n
    ensures Ticks(s, n) == s
  {
    if n > 0 {
      IdleTicks(Step(s, Tick), n - 1);
    }
  }

  /** From a settled, non-negative countdown, ticks never take it below
      zero. */
  lemma TicksNeverNegative(s: TimerState, n: nat)
    requires Settled(s) && s.remaining >= 0
    ensures Ticks(s, n).remaining >= 0
  {
    if s.running {
      TicksCountDown(s, n);
    } else {
      IdleTicks(s, n);
    }
  }

  /** A fifteen-minute session counts down to zero after 900 ticks and stops
      there, without returning to its duration. */
  lemma FullSessionStops(s: TimerState)
    requires s.running && s.remaining == DefaultSeconds
    ensures Ticks(s, DefaultSeconds).remaining == 0
    ensures !Ticks(s, DefaultSeconds).running
  {
    TicksCountDown(s, DefaultSeconds);
  }

  /** A reset returns the countdown to the last duration and shows it,
      stops the timer and holds the lock; a second reset before the restart
      changes nothing. */
  lemma ResetStopsAndLocks(s: TimerState)
    requires !s.resetLock
    ensures var r := Step(s, ResetClicked);
      && r == s.(remaining := s.lastSet, input := Shows(s.lastSet), running := false, resetLock := true)
      && Step(r, ResetClicked) == r
  {
  }

  /** The restart a reset scheduled: the countdown runs again, unless it is
      at zero, when the timer effect stops it at once. */
  lemma RestartStep(s: TimerState)
    requires s.resetLock && !s.running
    ensures Step(s, ResetElapsed) == s.(running := s.remaining != 0, resetLock := false)
  {
  }

  /** While a restart is pending, a reset click does nothing. */
  lemma ResetWhileLockedIgnored(s: TimerState)
    requires s.resetLock
    ensures Step(s, ResetClicked) == s
  {
  }

  /** The restart after a reset runs the countdown from the last duration
      (unless that is zero, when the timer stops at once) and releases the
      lock; a second firing changes nothing. */
  lemma RestartAfterReset(s: TimerState)
    requires !s.resetLock
    ensures var r := Run(s, [ResetClicked, ResetElapsed]);
      && r.remaining == s.lastSet
      && r.running == (s.lastSet != 0)
      && !r.resetLock
      && Step(r, ResetElapsed) == r
  {
    ResetStopsAndLocks(s);
    var s1 := s.(remaining := s.lastSet, input := Shows(s.lastSet), running := false, resetLock := true);
    RestartStep(s1);
    RunTwo(s, ResetClicked, ResetElapsed);
    ElapsedWithoutResetIgnored(s1.(running := s1.remaining != 0, resetLock := false));
  }

  /** Without a pending restart there is no timeout to fire. */
  lemma ElapsedWithoutResetIgnored(s: TimerState)
    requires !s.resetLock
    ensures Step(s, ResetElapsed) == s
  {
  }

  /** Two reset clicks before the restart fires end the same as one. */
  lemma DoubleResetRestartsOnce(s: TimerState)
    requires !s.resetLock
    ensures Run(s, [ResetClicked, ResetClicked, ResetElapsed]) == Run(s, [ResetClicked, ResetElapsed])
  {
    var s1 := Step(s, ResetClicked);
    ResetStopsAndLocks(s);
    RunThree(s, ResetClicked, ResetClicked, ResetElapsed);
    RunTwo(s1, ResetClicked, ResetElapsed);
    RunTwo(s, ResetClicked, ResetElapsed);
  }

  /** Stop halts the countdown where it is. */
  lemma StopKeepsCountdown(s: TimerState)
    ensures var r := Step(s, StopClicked);
      && !r.running && r.remaining == s.remaining && r.lastSet == s.lastSet
  {
  }

  /** Start runs the countdown from where it is, except that a countdown at
      zero stops again at once. */
  lemma StartRuns(s: TimerState)
    requires Settled(s)
    ensures var r := Step(s, StartClicked);
      && r.remaining == s.remaining && r.lastSet == s.lastSet
      && (r.running <==> s.remaining != 0)
  {
  }
}

=== FILE: wrappers.dfy ===
/** A value that may be absent: `null` for the selected entry id, `undefined`
    from `Array.prototype.find`, `NaN` from `parseInt`. */
module Wrappers {
  datatype Option<+T> = None | Some(value: T)
}
